=== FILE: README.md ===
# Watch-history channel statistics, modelled in Dafny

The modelled program is one Go file. It reads a Google Takeout `watch-history.json` export and counts how often each channel was watched, per year and over all time. It then writes sorted, truncated statistics as JSON. This project models the part between decoding and output:

- **Classifier** (`classifier.dfy`, helpers in `text.dfy`). A decoded activity is a watch event when its trimmed, lower-cased title starts with `"watched "`. Its trimmed timestamp must parse, and the year must lie in `[startYear, endYear]`. The channel key is the first subtitle's trimmed `(name, url)`. An empty name becomes `"(unknown channel)"`.
- **Aggregator** (`aggregator.dfy`, sums in `counts.dfy`). Year buckets exist for every year in range. An accepted record increments four counters: per-year-per-channel, per-year total, all-time-per-channel and the grand total. The pass is a left fold of `Step` over the classifier's verdicts on the records (`Verdicts`, `Pass`, `Aggregate`), and a loop (`StreamParseAndAggregate`) proved equal to it. The pass keeps the sum invariants (`Wf`). Every counter equals the number of accepted records carrying its year and/or key (`Describes`, computed against the independent list `Hits`).
- **Ranker** (`ranker.dfy`). `StatsFromMap` turns a count map into one row per key, in an arbitrary order, as Go's map iteration gives it. `SortStats` is an insertion sort. It returns a permutation ordered by count descending, then lower-cased name ascending. `Truncate` is the `top = top[:n]` slice.
- **Report** (`report.dfy`). The per-year top/full views, the all-time view and the grand total that `main` assembles before writing files (`Run`).
- `scenarios.dfy` works through six concrete records: a counted watch, a "Visited" record, a bad timestamp, an early year, a record without subtitles, and two records of one channel.

Behaviour of the code worth knowing:
- Names and urls are trimmed before keys are compared.
- A first subtitle whose trimmed name is empty yields the key `("(unknown channel)", url)`, which keeps the url. This is not always the empty-url sentinel.
- A subtitle whose trimmed name is literally `(unknown channel)` gets the same key as a nameless subtitle with the same trimmed url, `("(unknown channel)", url)`. It merges with the no-subtitle sentinel `("(unknown channel)", "")` only when that url is empty.
- The year loops at main.go:93 and main.go:106 (`for y := start; y <= end; y++` over Go `int`) never end when `-end` is the largest `int` (2^63 − 1, or 2^31 − 1 on 32-bit platforms). `y++` wraps to the smallest `int`, the guard still holds, and the first loop keeps adding buckets for years outside the window. Only `start <= end` is checked (main.go:69). See "## Findings".
- The per-year parse-failure counter is never incremented, so the model keeps it at zero (`NoParseFailures`).

## Model

| member | source | states |
|---|---|---|
| Text.IsSpace | main.go:240 | the white-space set `strings.TrimSpace` strips from ASCII text: tab, line feed, vertical tab, form feed, carriage return and space (code points 9–13 and 32) |
| Text.TrimSpace | main.go:278-279 | the result is no longer than the input and neither starts nor ends with white space |
| Text.TrimSpaceRemovesOnlySpace | main.go:278-279 | the trimmed text occurs inside the input with only white space around it (`PaddedBy`), so nothing but outer white space is removed |
| Text.TrimSpaceOfPadded | main.go:240 | trimming is determined by that description: any white-space padding of a word without outer white space trims back to the word |
| Text.ToLower | main.go:241 | `strings.ToLower` on ASCII: same length, each `A`–`Z` mapped to the matching letter `a`–`z` (same offset from the start of the alphabet), every other character kept |
| Text.ToLowerEqIff | main.go:241 | two strings lower-case to the same string exactly when they have the same length and each pair of characters is equal or is one ASCII letter in its two cases |
| Text.HasPrefix | main.go:241 | `strings.HasPrefix`: the string is at least as long as the prefix and starts with it |
| Text.Less | main.go:298 | Go's `<` on strings: the first differing character decides, and a proper prefix comes first (characterised by `LessIffFirstDifference`) |
| Text.LessIffFirstDifference | main.go:298 | Go's string `<` holds exactly when `a` is a proper prefix of `b`, or the first differing character of `a` is smaller |
| Text.LessTrichotomy | main.go:298 | string `<` is total and asymmetric: exactly one of `a < b`, `a == b`, `b < a` |
| Text.LessTransitive | main.go:298 | string `<` is transitive, so the sort comparator is a strict weak order |
| Classifier.IsWatchTitle | main.go:240-241 | the watch test: the trimmed, lower-cased title starts with `"watched "` (characterised by `WatchTitleIgnoresPaddingAndCase` and `WatchTitleOfUnpadded`) |
| Classifier.ExtractChannel | main.go:274-281 | no subtitles gives `("", "")`; each returned part is empty or neither starts nor ends with white space |
| Classifier.ExtractChannelTrims | main.go:278-279 | with a first subtitle, the name and url returned are that subtitle's fields less white space at the ends |
| Classifier.ChannelOf | main.go:257-262 | the key's name is never empty; no subtitles gives `("(unknown channel)", "")`; an empty trimmed name becomes the sentinel and the trimmed url is kept |
| Classifier.Classify | main.go:239-262 | an accepted record carries a year inside the window and the record's channel key |
| Classifier.ClassifyCases | main.go:239-262 | non-watch titles, unparsable times and out-of-range years are each rejected exactly under the condition the loop tests, acceptance happens exactly when all three tests pass, and a year-carrying verdict carries the parsed year |
| Classifier.SameChannelIffSameTrimmedPair | main.go:257-262 | two named records share a key iff their trimmed names and trimmed urls are equal |
| Classifier.WatchTitleIgnoresPaddingAndCase | main.go:240-241 | surrounding white space and letter case never stop a title from being recognised as a watch event |
| Classifier.WatchTitleOfUnpadded | main.go:240-241 | for a title with no white space at either end, the watch test depends only on its first eight characters, lower-cased |
| Classifier.BareWatchedIsNotWatch | main.go:240-241 | a title that is just "Watched" plus white space is not a watch event, because trimming removes the space the prefix needs |
| Counts.Get | main.go:263-265 | reading a Go `map[channelKey]int`: the stored count for a present key, 0 for a missing one |
| Counts.GetYear | main.go:263-265 | reading a Go `map[int]int`: the stored total for a present year, 0 for a missing one |
| Counts.Bump | main.go:263-265 | `m[k]++` on a Go map adds `k` if missing, raises its count by one, and leaves every other key's count alone |
| Counts.SumValuesBump | main.go:263-265 | one increment raises the sum of a count map by exactly one |
| Counts.SumRangeBump | main.go:264 | one increment of an in-range year total raises the sum over the range by exactly one |
| Aggregator.GoYearLoopNeverEnds | main.go:93-97 | the year loop as written, with 64-bit wrap-around (`GoInc`): when `end` is the largest `int`, the guard `y <= end` holds after any number of increments, and the increment after `end` reaches the smallest `int`, below the window |
| Aggregator.Buckets | main.go:93-97 | the initialisation loop creates a bucket for every year in `[start, end]` and for no other year |
| Aggregator.Init | main.go:86-97 | the initial state has empty buckets and zero totals for every year in range and satisfies the pass invariant |
| Aggregator.Record | main.go:262-266 | the four counters for `(y, k)` rise by one and nothing else changes, parse failures included |
| Aggregator.Step | main.go:239-266 | a rejecting verdict (`continue`) leaves the whole state unchanged; an accepting one changes it exactly as `Record` does; the buckets stay the window's years |
| Aggregator.RecordPreservesWf | main.go:252-266 | counting a record keeps each year's channel sum equal to its total, the range sum and the all-time sum equal to the grand total, and all counts positive |
| Aggregator.StepPreservesWf | main.go:239-266 | every iteration of the loop preserves the pass invariant |
| Aggregator.Verdicts | main.go:239-262 | one verdict per record, the classifier's, and every accepted verdict's year is inside the window |
| Aggregator.Pass | main.go:233-267 | after acting on any sequence of admissible verdicts there are buckets for exactly the years in range, and no parse failure has been counted |
| Aggregator.Aggregate | main.go:233-267 | after the pass over any input there are buckets for exactly the years in range, and no parse failure has been counted |
| Aggregator.AggregateSnoc | main.go:239-266 | the pass over one more record is the pass so far followed by one `Step` on that record's verdict, so a rejected record changes nothing and an accepted one touches only its own counters |
| Aggregator.AggregateSkipsRejected | main.go:240-255 | appending a record the classifier rejects leaves the state after the pass unchanged |
| Aggregator.AggregateCountsAccepted | main.go:262-266 | appending an accepted record raises its year-and-channel count, its year total, its all-time count and the grand total by one each, and leaves every other year, channel and parse-failure entry as it was (`Bumped`) |
| Aggregator.PassWf | main.go:86-97 | the pass invariant holds after the loop has acted on any admissible verdicts |
| Aggregator.AggregateWf | main.go:86-97 | the pass invariant holds after the whole input |
| Aggregator.Accepted | main.go:252-262 | the reference filter the counters are checked against (`PassCounts`): the `Accept` verdicts in order, as `(year, key)` hits; its own contract states only that it is no longer than its input |
| Aggregator.AcceptedInRange | main.go:252-255 | every accepted verdict of an admissible sequence has a year inside the window |
| Aggregator.Hits | main.go:239-262 | the accepted records, in input order, are no more than the input and all have in-range years |
| Aggregator.PassCounts | main.go:257-266 | after acting on verdicts, each counter equals the number of accepted verdicts with its year and/or key |
| Aggregator.AggregateCounts | main.go:257-266 | each counter equals the number of accepted records with its year and/or key; the grand total is the number of accepted records |
| Aggregator.StreamParseAndAggregate | main.go:233-271 | the loop, classifying each record in turn, computes the fold `Aggregate`, and its grand total is the number of accepted records |
| Ranker.StatsFromMap | main.go:283-293 | one row per map key with that key's name, url and count, keys distinct, length equal to the map size, counts summing to the map's sum |
| Ranker.GoLess | main.go:296-301 | the `less` closure given to `sort.Slice`: equal counts compare lower-cased names with `<`, otherwise the higher count is less |
| Ranker.BeforeIffNotGoLess | main.go:296-301 | "may precede" is exactly "not `less` the other way round" for the comparator given to `sort.Slice` |
| Ranker.BeforeTotal | main.go:296-301 | any two rows can be ordered one way or the other |
| Ranker.BeforeTransitive | main.go:296-301 | the ranking order is transitive |
| Ranker.Insert | main.go:295-302 | inserting into a ranked list gives a ranked list with the element added to the multiset |
| Ranker.SortStats | main.go:295-302 | the result is ordered by count descending, then lower-cased name ascending, and is a permutation of the input with the same sum |
| Ranker.Truncate | main.go:110-113 | the result is a prefix; its length is `min(len, n)` when `n > 0` and the whole list otherwise |
| Ranker.TruncateKeepsTop | main.go:110-113 | a top-N view of a ranked list is ranked, and every kept row ranks at least as high as every dropped row |
| Ranker.TruncateIsPrefixOfAll | main.go:132-135 | for `n > 0` the limited view is the first `min(len, n)` rows of the unlimited view |
| Ranker.SumCountsPrefix | main.go:110-113 | a truncated list never counts more watches than the full list |
| Ranker.RankCounts | main.go:107-108 | ranking a count map yields a ranked list of exactly its entries, one per key, with the same sum |
| Report.BuildYear | main.go:106-148 | a year's result carries its total, its number of distinct channels and zero parse failures; its top and full lists are both cuts of one ranking of the year's channels |
| Report.FullListSumsToTotal | main.go:132-148 | with no full-list limit, a year's full list has one row per channel and its counts add up to the year's total |
| Report.TopListWithinTotal | main.go:110-123 | a year's top list never counts more watches than the year's `TotalVideos`, and `UniqueChannels` never exceeds `TotalVideos` |
| Report.TopListIsTop | main.go:110-123 | a year's top list is ranked, and no channel left out of it outranks one in it |
| Report.BuildYears | main.go:105-154 | results exist for exactly the years in range, each reporting its year as `BuildYear` promises |
| Report.SumYearTotalsMatches | main.go:173-178 | summing the per-year results' totals is the same as summing the per-year counters |
| Report.Run | main.go:86-203 | per-year totals equal the accepted records of that year; the grand total is the sum of the per-year totals and the number of accepted records; the all-time list is a cut of a ranking of the all-time counts |
| Scenarios.CountedUnderItsChannel | main.go:239-266 | `"Watched Some Show"` at a 2022 time with subtitle `("Chan A", "http://x")` is counted for that channel in 2022 |
| Scenarios.VisitedIsIgnored | main.go:240-243 | appending a `"Visited a page"` record to any input leaves the state after the pass unchanged, whatever its time and subtitles |
| Scenarios.UnparsableTimeIsDropped | main.go:245-250 | a watch record with time `"not-a-date"` is rejected as an unparsable time |
| Scenarios.EarlyYearIsDropped | main.go:252-255 | a watch record from 2019 is rejected for the window 2020–2026 |
| Scenarios.NoSubtitlesIsUnknownChannel | main.go:257-262 | a watch record without subtitles is counted for `("(unknown channel)", "")` |
| Scenarios.SameChannelTwiceCountsTwo | main.go:262-266 | two accepted records of one channel in one year give that channel a count of 2 in the year's channel map and in the all-time map, and a year total of 2 |
| Scenarios.SameChannelTwiceIsRanked | main.go:106-108 | that channel appears in any ranking of that year's map (statsFromMap then the sort), with a count of 2 |

## Left out

- Flag parsing, the exit codes, directory creation and output file names (main.go:56-84, 126-209) are configuration and I/O. `start <= end` appears as the precondition of `Report.Run`.
- `writeJSON` (main.go:304-328) is filesystem I/O: the temporary file, the encoding and the rename.
- The streaming decoder (main.go:222-236, 269) is left out: the reader, `json.Decoder`, the check for a leading `[`, and per-element decode errors. The input is an already-decoded `seq<Activity>`.
- `time.Parse(time.RFC3339, …)` followed by `Year()` becomes the function parameter `Config.parseYear`. The `date-time` grammar of section 5.6 of RFC 3339 and Go's time semantics are not modelled.
- Text.TrimSpace: removes ASCII white space only. Go's `strings.TrimSpace` also removes the non-ASCII Unicode spaces (U+0085, U+00A0 and others), and those are not modelled.
- Text.ToLower: lower-cases the ASCII letters `A`–`Z` only. Go's `strings.ToLower` maps every Unicode upper-case letter.
- Ranker.SortStats: states sortedness and permutation only. The order of rows that tie on both count and lower-cased name depends on map iteration order and on the unstable `sort.Slice`, so it is not modelled.
- The fixed strings of the payloads (the sort description and the note) are not modelled. The JSON field layout and `omitempty` on empty urls are not modelled either.
- Go's `int` is 64 bits wide on 64-bit platforms (32 bits on 32-bit ones). The model uses unbounded `nat` counters and does not model overflow, which would need more than 2^63 records (2^31 on 32-bit platforms). Years are unbounded `int` in `Buckets`, `BuildYears` and `Run`. The wrap-around of the year loops is modelled separately (`GoYearLoopNeverEnds`, under "## Findings"), and only for 64-bit platforms.

## Findings

| source | as written | input that shows it | evidently intended | confidence | as-written member | corrected member |
|---|---|---|---|---|---|---|
| main.go:93-97 | `for y := *startYear; y <= *endYear; y++` over Go `int`, guarded only by `start <= end` (main.go:69). The loop at main.go:106 has the same shape | `-end 9223372036854775807`: after the last year `y++` wraps to −2^63, `y <= end` stays true, and the loop never exits, adding buckets until memory runs out | one bucket per year in `[start, end]`, then the loop exits | high, not executed | Aggregator.GoYearLoopNeverEnds | Aggregator.Buckets |

=== FILE: aggregator.dfy ===
/**
 * The aggregator: the year buckets main.go prepares, the four counters each
 * accepted record increments, and the single pass over the decoded records
 * (streamParseAndAggregate without the JSON decoder).
 */
module Aggregator {
  import opened Classifier
  import opened Counts

  /** The state main.go allocates before the pass and streamParseAndAggregate mutates. */
  datatype Tally = Tally(
    yearCounts: map<int, map<ChannelKey, nat>>,
    yearTotals: map<int, nat>,
    yearParseFails: map<int, nat>,
    allTimeCounts: map<ChannelKey, nat>,
    totalAllYears: nat)

  predicate InRange(y: int, cfg: Config) {
    cfg.startYear <= y <= cfg.endYear
  }

  /** There is a bucket for every year of the window and for no other year. */
  ghost predicate HasBuckets(t: Tally, cfg: Config) {
    && (forall y :: y in t.yearCounts <==> InRange(y, cfg))
    && (forall y :: y in t.yearTotals <==> InRange(y, cfg))
    && (forall y :: y in t.yearParseFails <==> InRange(y, cfg))
  }

  /** The per-year parse-failure counters are declared but never incremented. */
  ghost predicate NoParseFailures(t: Tally) {
    forall y :: y in t.yearParseFails ==> t.yearParseFails[y] == 0
  }

  /** The invariant of the whole pass. */
  ghost predicate Wf(t: Tally, cfg: Config) {
    && HasBuckets(t, cfg)
    && NoParseFailures(t)
    && (forall y :: y in t.yearCounts ==> AllPositive(t.yearCounts[y]))
    && AllPositive(t.allTimeCounts)
    && (forall y :: y in t.yearCounts ==> SumValues(t.yearCounts[y]) == t.yearTotals[y])
    && SumRange(t.yearTotals, cfg.startYear, cfg.endYear) == t.totalAllYears
    && SumValues(t.allTimeCounts) == t.totalAllYears
  }

  /** The year buckets initialised before the pass: empty and zero for every year in the window. */
  function Init(cfg: Config): (t: Tally)
    ensures Wf(t, cfg)
    ensures forall y :: y in t.yearCounts ==> t.yearCounts[y] == map[] && t.yearTotals[y] == 0
    ensures t.allTimeCounts == map[] && t.totalAllYears == 0
  {
    var t := Tally(
      Buckets(cfg.startYear, cfg.endYear, map[]),
      Buckets(cfg.startYear, cfg.endYear, 0),
      Buckets(cfg.startYear, cfg.endYear, 0),
      map[], 0);
    SumRangeZero(t.yearTotals, cfg.startYear, cfg.endYear);
    t
  }

  /** The bucket-initialisation loop `for y := start; y <= end; y++ { m[y] = v }`. */
  function Buckets<V>(lo: int, hi: int, v: V): (m: map<int, V>)
    ensures forall y :: y in m <==> lo <= y <= hi
    ensures forall y :: y in m ==> m[y] == v
    decreases hi - lo
  {
    if lo > hi then map[] else Buckets(lo + 1, hi, v)[lo := v]
  }

  /** The largest and the smallest Go `int` on a 64-bit platform. */
  const MaxInt: int := 0x7fff_ffff_ffff_ffff
  const MinInt: int := -0x8000_0000_0000_0000

  /** Go's `y++` on a 64-bit `int`: the largest value wraps around to the smallest. */
  function GoInc(y: int): (z: int)
    requires MinInt <= y <= MaxInt
    ensures MinInt <= z <= MaxInt
    ensures y < MaxInt ==> z == y + 1
    ensures y == MaxInt ==> z == MinInt
  {
    if y == MaxInt then MinInt else y + 1
  }

  /** The value of the loop variable of main.go:93 (and :106) after `n` increments from `lo`, as Go computes it. */
  function GoYearAfter(lo: int, n: nat): (y: int)
    requires MinInt <= lo <= MaxInt
    ensures MinInt <= y <= MaxInt
  {
    if n == 0 then lo else GoInc(GoYearAfter(lo, n - 1))
  }

  /** Below the largest `int`, the increments count up without wrapping. */
  lemma {:induction false} GoYearAfterCounts(lo: int, n: nat)
    requires MinInt <= lo && lo + n <= MaxInt
    ensures GoYearAfter(lo, n) == lo + n
  {
    if n > 0 {
      GoYearAfterCounts(lo, n - 1);
    }
  }

  /**
   * The year loops as written, with `-end` the largest `int`: the guard
   * `y <= end` holds after every number of increments, so the loop never
   * exits, and the increment after the last year lands on the smallest
   * `int`, a year below the window that then gets a bucket of its own.
   * `Buckets` is the loop as evidently intended: it stops after `end`.
   */
  lemma GoYearLoopNeverEnds(lo: int)
    requires MinInt < lo <= MaxInt
    ensures forall n: nat :: GoYearAfter(lo, n) <= MaxInt
    ensures GoYearAfter(lo, MaxInt - lo) == MaxInt
    ensures GoYearAfter(lo, MaxInt - lo + 1) == MinInt < lo
  {
    GoYearAfterCounts(lo, MaxInt - lo);
  }

  lemma {:induction false} SumRangeZero(m: map<int, nat>, lo: int, hi: int)
    requires forall y :: y in m ==> m[y] == 0
    ensures SumRange(m, lo, hi) == 0
    decreases hi - lo
  {
    if lo <= hi {
      SumRangeZero(m, lo + 1, hi);
    }
  }

  /**
   * `t2` is `t` after counting one record for channel `k` in year `y`:
   * the four counters for (y, k) are one higher and nothing else differs.
   */
  ghost predicate Bumped(t: Tally, t2: Tally, y: int, k: ChannelKey)
    requires y in t.yearCounts && y in t2.yearCounts
  {
    && t2.yearCounts.Keys == t.yearCounts.Keys
    && t2.yearTotals.Keys == t.yearTotals.Keys
    && t2.yearParseFails == t.yearParseFails
    && Get(t2.yearCounts[y], k) == Get(t.yearCounts[y], k) + 1
    && t2.yearCounts[y].Keys == t.yearCounts[y].Keys + {k}
    && (forall k' :: k' != k ==> Get(t2.yearCounts[y], k') == Get(t.yearCounts[y], k'))
    && (forall y' :: y' in t.yearCounts && y' != y ==> t2.yearCounts[y'] == t.yearCounts[y'])
    && GetYear(t2.yearTotals, y) == GetYear(t.yearTotals, y) + 1
    && (forall y' :: y' != y ==> GetYear(t2.yearTotals, y') == GetYear(t.yearTotals, y'))
    && Get(t2.allTimeCounts, k) == Get(t.allTimeCounts, k) + 1
    && t2.allTimeCounts.Keys == t.allTimeCounts.Keys + {k}
    && (forall k' :: k' != k ==> Get(t2.allTimeCounts, k') == Get(t.allTimeCounts, k'))
    && t2.totalAllYears == t.totalAllYears + 1
  }

  /** The four increments of an accepted record. */
  function Record(t: Tally, y: int, k: ChannelKey): (t2: Tally)
    requires y in t.yearCounts && y in t.yearTotals
    ensures y in t2.yearCounts && Bumped(t, t2, y, k)
  {
    t.(yearCounts := t.yearCounts[y := Bump(t.yearCounts[y], k)],
       yearTotals := t.yearTotals[y := t.yearTotals[y] + 1],
       allTimeCounts := Bump(t.allTimeCounts, k),
       totalAllYears := t.totalAllYears + 1)
  }

  /**
   * The verdicts the decode loop can act on: an accepted record's year lies
   * in the window, as the loop's range test guarantees.
   */
  predicate Admissible(vs: seq<Verdict>, cfg: Config) {
    forall i :: 0 <= i < |vs| && vs[i].Accept? ==> InRange(vs[i].year, cfg)
  }

  /** One iteration of the decode loop, given the classifier's verdict on the record. */
  function Step(t: Tally, v: Verdict, cfg: Config): (t2: Tally)
    requires HasBuckets(t, cfg)
    requires v.Accept? ==> InRange(v.year, cfg)
    ensures HasBuckets(t2, cfg)
    ensures !v.Accept? ==> t2 == t
    ensures v.Accept? ==> Bumped(t, t2, v.year, v.key)
  {
    if v.Accept? then Record(t, v.year, v.key) else t
  }

  /** Counting a record keeps every sum equal to its total. */
  lemma RecordPreservesWf(t: Tally, y: int, k: ChannelKey, cfg: Config)
    requires Wf(t, cfg) && InRange(y, cfg)
    ensures Wf(Record(t, y, k), cfg)
  {
    var t2 := Record(t, y, k);
    var c2, a2 := Bump(t.yearCounts[y], k), Bump(t.allTimeCounts, k);
    assert y in t.yearTotals && GetYear(t.yearTotals, y) == t.yearTotals[y];
    var totals2 := t.yearTotals[y := GetYear(t.yearTotals, y) + 1];
    assert t2 == Tally(t.yearCounts[y := c2], totals2, t.yearParseFails, a2, t.totalAllYears + 1);
    SumValuesBump(t.yearCounts[y], k);
    SumValuesBump(t.allTimeCounts, k);
    assert SumValues(a2) == t.totalAllYears + 1;
    SumRangeBump(t.yearTotals, cfg.startYear, cfg.endYear, y);
    assert SumRange(totals2, cfg.startYear, cfg.endYear) == t.totalAllYears + 1;
    assert HasBuckets(t2, cfg) && NoParseFailures(t2);
    forall y' | y' in t2.yearCounts
      ensures AllPositive(t2.yearCounts[y'])
      ensures SumValues(t2.yearCounts[y']) == t2.yearTotals[y']
    {
      if y' != y {
        assert t2.yearCounts[y'] == t.yearCounts[y'];
      }
    }
  }

  lemma StepPreservesWf(t: Tally, v: Verdict, cfg: Config)
    requires Wf(t, cfg)
    requires v.Accept? ==> InRange(v.year, cfg)
    ensures Wf(Step(t, v, cfg), cfg)
  {
    if v.Accept? {
      RecordPreservesWf(t, v.year, v.key, cfg);
    }
  }

  /** The classifier's verdict on each record, in input order. */
  function Verdicts(acts: seq<Activity>, cfg: Config): (vs: seq<Verdict>)
    ensures |vs| == |acts|
    ensures forall i :: 0 <= i < |acts| ==> vs[i] == Classify(acts[i], cfg)
    ensures Admissible(vs, cfg)
  {
    seq(|acts|, i requires 0 <= i < |acts| => Classify(acts[i], cfg))
  }

  /** The state after the loop has acted on the verdicts `vs`, in order. */
  function Pass(vs: seq<Verdict>, cfg: Config): (t: Tally)
    requires Admissible(vs, cfg)
    ensures HasBuckets(t, cfg)
    ensures t.yearParseFails == Init(cfg).yearParseFails
    decreases |vs|
  {
    if |vs| == 0 then Init(cfg)
    else Step(Pass(vs[..|vs| - 1], cfg), vs[|vs| - 1], cfg)
  }

  /** The state after the pass over `acts`. */
  function Aggregate(acts: seq<Activity>, cfg: Config): (t: Tally)
    ensures HasBuckets(t, cfg)
    ensures t.yearParseFails == Init(cfg).yearParseFails
  {
    Pass(Verdicts(acts, cfg), cfg)
  }

  /** Appending a record to the input appends its verdict. */
  lemma VerdictsSnoc(acts: seq<Activity>, x: Activity, cfg: Config)
    ensures Verdicts(acts + [x], cfg)[..|acts|] == Verdicts(acts, cfg)
    ensures Verdicts(acts + [x], cfg)[|acts|] == Classify(x, cfg)
  {
    var vs := Verdicts(acts + [x], cfg);
    assert (acts + [x])[|acts|] == x;
    forall i | 0 <= i < |acts| ensures vs[i] == Verdicts(acts, cfg)[i] {
      assert (acts + [x])[i] == acts[i];
    }
  }

  /** The pass over one more record is one more `Step`: whatever that step does not touch stays as it was. */
  lemma AggregateSnoc(acts: seq<Activity>, x: Activity, cfg: Config)
    ensures Aggregate(acts + [x], cfg) == Step(Aggregate(acts, cfg), Classify(x, cfg), cfg)
  {
    VerdictsSnoc(acts, x, cfg);
  }

  /** A record the classifier rejects leaves the state of the pass unchanged. */
  lemma AggregateSkipsRejected(acts: seq<Activity>, x: Activity, cfg: Config)
    requires !Classify(x, cfg).Accept?
    ensures Aggregate(acts + [x], cfg) == Aggregate(acts, cfg)
  {
    VerdictsSnoc(acts, x, cfg);
  }

  /** An accepted record raises its channel's count in its year, its year's total, its channel's all-time count and the grand total by one. */
  lemma AggregateCountsAccepted(acts: seq<Activity>, x: Activity, y: int, k: ChannelKey, cfg: Config)
    requires Classify(x, cfg) == Accept(y, k)
    ensures InRange(y, cfg)
    ensures Get(Aggregate(acts + [x], cfg).yearCounts[y], k) == Get(Aggregate(acts, cfg).yearCounts[y], k) + 1
    ensures GetYear(Aggregate(acts + [x], cfg).yearTotals, y) == GetYear(Aggregate(acts, cfg).yearTotals, y) + 1
    ensures Get(Aggregate(acts + [x], cfg).allTimeCounts, k) == Get(Aggregate(acts, cfg).allTimeCounts, k) + 1
    ensures Aggregate(acts + [x], cfg).totalAllYears == Aggregate(acts, cfg).totalAllYears + 1
    ensures Bumped(Aggregate(acts, cfg), Aggregate(acts + [x], cfg), y, k)
  {
    VerdictsSnoc(acts, x, cfg);
  }

  lemma {:induction false} PassWf(vs: seq<Verdict>, cfg: Config)
    requires Admissible(vs, cfg)
    ensures Wf(Pass(vs, cfg), cfg)
    decreases |vs|
  {
    if |vs| > 0 {
      PassWf(vs[..|vs| - 1], cfg);
      StepPreservesWf(Pass(vs[..|vs| - 1], cfg), vs[|vs| - 1], cfg);
    }
  }

  lemma AggregateWf(acts: seq<Activity>, cfg: Config)
    ensures Wf(Aggregate(acts, cfg), cfg)
  {
    PassWf(Verdicts(acts, cfg), cfg);
  }

  /** An accepted record: its year and channel. */
  datatype Hit = Hit(year: int, key: ChannelKey)

  /** The accepted verdicts, in order. */
  function Accepted(vs: seq<Verdict>): (hs: seq<Hit>)
    ensures |hs| <= |vs|
    decreases |vs|
  {
    if |vs| == 0 then []
    else
      var pre := Accepted(vs[..|vs| - 1]);
      match vs[|vs| - 1]
      case Accept(y, k) => pre + [Hit(y, k)]
      case _ => pre
  }

  /** The records the pass accepts, in input order: the reference the counters are checked against. */
  function Hits(acts: seq<Activity>, cfg: Config): (hs: seq<Hit>)
    ensures |hs| <= |acts|
    ensures forall i :: 0 <= i < |hs| ==> InRange(hs[i].year, cfg)
  {
    var vs := Verdicts(acts, cfg);
    AcceptedInRange(vs, cfg);
    Accepted(vs)
  }

  lemma {:induction false} AcceptedInRange(vs: seq<Verdict>, cfg: Config)
    requires Admissible(vs, cfg)
    ensures forall i :: 0 <= i < |Accepted(vs)| ==> InRange(Accepted(vs)[i].year, cfg)
    decreases |vs|
  {
    if |vs| > 0 {
      AcceptedInRange(vs[..|vs| - 1], cfg);
    }
  }

  function CountHit(hs: seq<Hit>, h: Hit): nat
    decreases |hs|
  {
    if |hs| == 0 then 0
    else CountHit(hs[..|hs| - 1], h) + (if hs[|hs| - 1] == h then 1 else 0)
  }

  function CountYear(hs: seq<Hit>, y: int): nat
    decreases |hs|
  {
    if |hs| == 0 then 0
    else CountYear(hs[..|hs| - 1], y) + (if hs[|hs| - 1].year == y then 1 else 0)
  }

  function CountKey(hs: seq<Hit>, k: ChannelKey): nat
    decreases |hs|
  {
    if |hs| == 0 then 0
    else CountKey(hs[..|hs| - 1], k) + (if hs[|hs| - 1].key == k then 1 else 0)
  }

  /** The state describes the accepted records exactly. */
  ghost predicate Describes(t: Tally, hs: seq<Hit>, cfg: Config)
    requires HasBuckets(t, cfg)
  {
    && (forall y, k :: InRange(y, cfg) ==> Get(t.yearCounts[y], k) == CountHit(hs, Hit(y, k)))
    && (forall y :: InRange(y, cfg) ==> GetYear(t.yearTotals, y) == CountYear(hs, y))
    && (forall k :: Get(t.allTimeCounts, k) == CountKey(hs, k))
    && t.totalAllYears == |hs|
  }

  /**
   * Every counter equals the number of accepted records it is keyed by:
   * records with the same (year, key) are merged, records differing in either are kept apart.
   */
  lemma {:induction false} PassCounts(vs: seq<Verdict>, cfg: Config)
    requires Admissible(vs, cfg)
    ensures Describes(Pass(vs, cfg), Accepted(vs), cfg)
    decreases |vs|
  {
    if |vs| > 0 {
      var pre := vs[..|vs| - 1];
      PassCounts(pre, cfg);
      var v := vs[|vs| - 1];
      if v.Accept? {
        RecordDescribes(Pass(pre, cfg), Accepted(pre), v.year, v.key, cfg);
      }
    }
  }

  lemma AggregateCounts(acts: seq<Activity>, cfg: Config)
    ensures Describes(Aggregate(acts, cfg), Hits(acts, cfg), cfg)
  {
    PassCounts(Verdicts(acts, cfg), cfg);
  }

  lemma RecordDescribes(t: Tally, hs: seq<Hit>, y: int, k: ChannelKey, cfg: Config)
    requires HasBuckets(t, cfg) && Describes(t, hs, cfg) && InRange(y, cfg)
    ensures HasBuckets(Record(t, y, k), cfg)
    ensures Describes(Record(t, y, k), hs + [Hit(y, k)], cfg)
  {
    var hs2 := hs + [Hit(y, k)];
    assert hs2[..|hs2| - 1] == hs;
  }

  /** The fold over one more verdict is one more step. */
  lemma PassExtend(vs: seq<Verdict>, i: nat, cfg: Config)
    requires Admissible(vs, cfg) && i < |vs|
    ensures Admissible(vs[..i], cfg) && Admissible(vs[..i + 1], cfg)
    ensures vs[i].Accept? ==> InRange(vs[i].year, cfg)
    ensures Pass(vs[..i + 1], cfg) == Step(Pass(vs[..i], cfg), vs[i], cfg)
  {
    assert vs[..i + 1][..i] == vs[..i];
  }

  /** The loop of streamParseAndAggregate over the decoded records. */
  method StreamParseAndAggregate(acts: seq<Activity>, cfg: Config) returns (t: Tally)
    ensures t == Aggregate(acts, cfg)
    ensures t.totalAllYears == |Hits(acts, cfg)|
  {
    var vs := Verdicts(acts, cfg);
    t := Init(cfg);
    var i := 0;
    while i < |acts|
      invariant 0 <= i <= |acts|
      invariant Admissible(vs[..i], cfg) && t == Pass(vs[..i], cfg)
    {
      var v := Classify(acts[i], cfg);
      PassExtend(vs, i, cfg);
      t := Step(t, v, cfg);
      i := i + 1;
    }
    assert vs[..|acts|] == vs;
    AggregateCounts(acts, cfg);
  }
}

=== FILE: classifier.dfy ===
/**
 * The record classifier: which decoded activities are watch events, which
 * year they are counted in, and which channel they are counted for
 * (main.go, the body of the decode loop in streamParseAndAggregate, and extractChannel).
 */
module Classifier {
  import opened Wrappers
  import opened Text

  /** One entry of an activity's "subtitles" array. */
  datatype Subtitle = Subtitle(name: string, url: string)

  /** A decoded element of the input array (TakeoutActivity); absent JSON fields decode as "" or []. */
  datatype Activity = Activity(title: string, titleUrl: string, time: string, subtitles: seq<Subtitle>)

  /** A channel's identity: exact string equality on the (already trimmed) name and url. */
  datatype ChannelKey = ChannelKey(name: string, url: string)

  /**
   * The run's year window and the timestamp reader. `parseYear` stands for
   * `time.Parse` with Go's `time.RFC3339` layout followed by `Year()`: it
   * yields the year in the timestamp's own offset, or None when Go's parser
   * rejects the text.
   */
  datatype Config = Config(startYear: int, endYear: int, parseYear: string -> Option<int>)

  const UnknownChannel: string := "(unknown channel)"
  const WatchPrefix: string := "watched "

  /** What the decode loop does with one record. */
  datatype Verdict =
    | NotWatch                            // title does not start with "watched "
    | BadTime                             // timestamp does not parse
    | OutOfRange(year: int)               // parsed year outside [startYear, endYear]
    | Accept(year: int, key: ChannelKey)  // counted once for `key` in `year`

  predicate IsWatchTitle(title: string) {
    HasPrefix(ToLower(TrimSpace(title)), WatchPrefix)
  }

  /** extractChannel: the first subtitle's trimmed name and url, or two empty strings. */
  function ExtractChannel(a: Activity): (nu: (string, string))
    ensures |a.subtitles| == 0 ==> nu == ("", "")
    ensures nu.0 == [] || (!IsSpace(nu.0[0]) && !IsSpace(nu.0[|nu.0| - 1]))
    ensures nu.1 == [] || (!IsSpace(nu.1[0]) && !IsSpace(nu.1[|nu.1| - 1]))
  {
    if |a.subtitles| == 0 then ("", "")
    else (TrimSpace(a.subtitles[0].name), TrimSpace(a.subtitles[0].url))
  }

  /** The extracted name and url are the first subtitle's fields less white space at the ends. */
  lemma ExtractChannelTrims(a: Activity)
    requires |a.subtitles| > 0
    ensures PaddedBy(a.subtitles[0].name, ExtractChannel(a).0)
    ensures PaddedBy(a.subtitles[0].url, ExtractChannel(a).1)
  {
    TrimSpaceRemovesOnlySpace(a.subtitles[0].name);
    TrimSpaceRemovesOnlySpace(a.subtitles[0].url);
  }

  /** The key a watch record is counted under: an empty name becomes "(unknown channel)". */
  function ChannelOf(a: Activity): (k: ChannelKey)
    ensures k.name != []
    ensures |a.subtitles| == 0 ==> k == ChannelKey(UnknownChannel, "")
    ensures |a.subtitles| > 0 ==> k.url == TrimSpace(a.subtitles[0].url)
    ensures |a.subtitles| > 0 && TrimSpace(a.subtitles[0].name) != [] ==>
              k.name == TrimSpace(a.subtitles[0].name)
    ensures |a.subtitles| > 0 && TrimSpace(a.subtitles[0].name) == [] ==>
              k.name == UnknownChannel
  {
    var (name, url) := ExtractChannel(a);
    ChannelKey(if name == "" then UnknownChannel else name, url)
  }

  /** Classifies one decoded record, in the order the decode loop tests it. */
  function Classify(a: Activity, cfg: Config): (v: Verdict)
    ensures v.Accept? ==> cfg.startYear <= v.year <= cfg.endYear && v.key == ChannelOf(a)
  {
    if !IsWatchTitle(a.title) then NotWatch
    else match cfg.parseYear(TrimSpace(a.time))
      case None => BadTime
      case Some(y) =>
        if y < cfg.startYear || y > cfg.endYear then OutOfRange(y)
        else Accept(y, ChannelOf(a))
  }

  /** Each verdict is given exactly when the loop's corresponding test decides it. */
  lemma ClassifyCases(a: Activity, cfg: Config)
    ensures Classify(a, cfg).NotWatch? <==> !IsWatchTitle(a.title)
    ensures Classify(a, cfg).BadTime? <==>
              IsWatchTitle(a.title) && cfg.parseYear(TrimSpace(a.time)).None?
    ensures Classify(a, cfg).OutOfRange? <==>
              && IsWatchTitle(a.title)
              && cfg.parseYear(TrimSpace(a.time)).Some?
              && !(cfg.startYear <= cfg.parseYear(TrimSpace(a.time)).value <= cfg.endYear)
    ensures Classify(a, cfg).Accept? <==>
              && IsWatchTitle(a.title)
              && cfg.parseYear(TrimSpace(a.time)).Some?
              && cfg.startYear <= cfg.parseYear(TrimSpace(a.time)).value <= cfg.endYear
    ensures Classify(a, cfg).OutOfRange? || Classify(a, cfg).Accept? ==>
              Some(Classify(a, cfg).year) == cfg.parseYear(TrimSpace(a.time))
  {
  }

  /**
   * Identity law: two records with named first subtitles share a key exactly
   * when their trimmed names and trimmed urls are equal.
   */
  lemma SameChannelIffSameTrimmedPair(a: Activity, b: Activity)
    requires |a.subtitles| > 0 && TrimSpace(a.subtitles[0].name) != []
    requires |b.subtitles| > 0 && TrimSpace(b.subtitles[0].name) != []
    ensures ChannelOf(a) == ChannelOf(b) <==>
              && TrimSpace(a.subtitles[0].name) == TrimSpace(b.subtitles[0].name)
              && TrimSpace(a.subtitles[0].url) == TrimSpace(b.subtitles[0].url)
  {
  }

  /** Padding and letter case around the prefix do not matter to the watch test. */
  lemma WatchTitleIgnoresPaddingAndCase(p: string, w: string, rest: string, q: string)
    requires AllSpace(p) && AllSpace(q)
    requires |w| == |WatchPrefix| && ToLower(w) == WatchPrefix
    requires rest != [] && !IsSpace(rest[|rest| - 1])
    ensures IsWatchTitle(p + w + rest + q)
  {
    assert |WatchPrefix| == 8 && WatchPrefix[0] == 'w';
    assert !IsSpace(w[0]) by { assert LowerChar(w[0]) == 'w'; }
    var word := w + rest;
    assert word[0] == w[0] && word[|word| - 1] == rest[|rest| - 1];
    assert p + w + rest + q == p + word + q;
    TrimSpaceOfPadded(p, word, q);
    assert word[..8] == w;
    ToLowerPrefix(word, 8);
  }

  /** For a title without surrounding white space, the test looks at its first eight characters only. */
  lemma WatchTitleOfUnpadded(s: string)
    requires s == [] || (!IsSpace(s[0]) && !IsSpace(s[|s| - 1]))
    ensures IsWatchTitle(s) <==> |s| >= |WatchPrefix| && ToLower(s[..|WatchPrefix|]) == WatchPrefix
  {
    TrimSpaceOfUnpadded(s);
    assert IsWatchTitle(s) == HasPrefix(ToLower(s), WatchPrefix);
    assert |WatchPrefix| == 8;
    if |s| >= 8 {
      ToLowerPrefix(s, 8);
    }
  }

  /** A title whose trimmed text is just "Watched" (the space was trimmed away) is not a watch event. */
  lemma BareWatchedIsNotWatch(p: string, q: string)
    requires AllSpace(p) && AllSpace(q)
    ensures !IsWatchTitle(p + "Watched" + q)
  {
    TrimSpaceOfPadded(p, "Watched", q);
  }
}

=== FILE: counts.dfy ===
/**
 * Counter maps: a missing key reads as zero (as a Go map of ints does), and the
 * sums over a channel map and over a range of year totals.
 */
module Counts {
  import opened Classifier

  /** Reading a Go `map[channelKey]int`: a missing key yields 0. */
  function Get(m: map<ChannelKey, nat>, k: ChannelKey): nat {
    if k in m then m[k] else 0
  }

  /** Reading a Go `map[int]int`: a missing year yields 0. */
  function GetYear(m: map<int, nat>, y: int): nat {
    if y in m then m[y] else 0
  }

  /** `m[k]++` on a Go map: a missing key is created with count 1. */
  function Bump(m: map<ChannelKey, nat>, k: ChannelKey): (m': map<ChannelKey, nat>)
    ensures m'.Keys == m.Keys + {k}
    ensures Get(m', k) == Get(m, k) + 1
    ensures forall k' :: k' != k ==> Get(m', k') == Get(m, k')
  {
    m[k := Get(m, k) + 1]
  }

  /** The sum of every count in a channel map. */
  ghost function SumValues(m: map<ChannelKey, nat>): nat
    decreases |m|
  {
    if m == map[] then 0
    else
      var k :| k in m;
      m[k] + SumValues(m - {k})
  }

  /** Any key can be peeled off first: the sum does not depend on the order of the keys. */
  lemma {:induction false} SumValuesRemove(m: map<ChannelKey, nat>, k: ChannelKey)
    requires k in m
    ensures SumValues(m) == m[k] + SumValues(m - {k})
    decreases |m|
  {
    var j :| j in m && SumValues(m) == m[j] + SumValues(m - {j});
    if j != k {
      assert |m - {j}| < |m| by { assert (m - {j}).Keys == m.Keys - {j}; }
      assert |m - {k}| < |m| by { assert (m - {k}).Keys == m.Keys - {k}; }
      SumValuesRemove(m - {j}, k);
      SumValuesRemove(m - {k}, j);
      assert (m - {j}) - {k} == (m - {k}) - {j};
    }
  }

  lemma SumValuesBump(m: map<ChannelKey, nat>, k: ChannelKey)
    ensures SumValues(Bump(m, k)) == SumValues(m) + 1
  {
    var m' := Bump(m, k);
    SumValuesRemove(m', k);
    if k in m {
      SumValuesRemove(m, k);
      assert m' - {k} == m - {k};
    } else {
      assert m' - {k} == m;
    }
  }

  /** Every count in the map is at least one, so a key is present exactly when it was counted. */
  predicate AllPositive(m: map<ChannelKey, nat>) {
    forall k :: k in m ==> m[k] > 0
  }

  /** A map of positive counts has a sum no smaller than its number of keys. */
  lemma {:induction false} SumValuesAtLeastSize(m: map<ChannelKey, nat>)
    requires AllPositive(m)
    ensures SumValues(m) >= |m|
    decreases |m|
  {
    if m != map[] {
      var k :| k in m;
      SumValuesRemove(m, k);
      assert (m - {k}).Keys == m.Keys - {k};
      SumValuesAtLeastSize(m - {k});
    }
  }

  /** The sum of the year totals for every year in [lo, hi]. */
  function SumRange(m: map<int, nat>, lo: int, hi: int): nat
    decreases hi - lo
  {
    if lo > hi then 0 else GetYear(m, lo) + SumRange(m, lo + 1, hi)
  }

  lemma {:induction false} SumRangeBump(m: map<int, nat>, lo: int, hi: int, y: int)
    requires lo <= y <= hi
    ensures SumRange(m[y := GetYear(m, y) + 1], lo, hi) == SumRange(m, lo, hi) + 1
    decreases hi - lo
  {
    if lo < y {
      SumRangeBump(m, lo + 1, hi, y);
    } else {
      SumRangeUnchanged(m, m[y := GetYear(m, y) + 1], lo + 1, hi);
    }
  }

  lemma {:induction false} SumRangeUnchanged(m: map<int, nat>, m': map<int, nat>, lo: int, hi: int)
    requires forall y :: lo <= y <= hi ==> GetYear(m, y) == GetYear(m', y)
    ensures SumRange(m, lo, hi) == SumRange(m', lo, hi)
    decreases hi - lo
  {
    if lo <= hi {
      SumRangeUnchanged(m, m', lo + 1, hi);
    }
  }
}

=== FILE: ranker.dfy ===
/**
 * The ranker: statsFromMap, sortStatsByCountThenName and the "top N" slicing
 * main.go applies to the sorted lists.
 */
module Ranker {
  import opened Text
  import opened Classifier
  import opened Counts

  /** One output row: a channel and how many accepted records it has. */
  datatype ChannelStat = ChannelStat(name: string, url: string, count: nat)

  function KeyOf(st: ChannelStat): ChannelKey {
    ChannelKey(st.name, st.url)
  }

  function SumCounts(s: seq<ChannelStat>): nat {
    if |s| == 0 then 0 else s[0].count + SumCounts(s[1..])
  }

  /** The rows are exactly the entries of `m`: one row per key, carrying that key's count. */
  ghost predicate ListsExactly(s: seq<ChannelStat>, m: map<ChannelKey, nat>) {
    && (forall i :: 0 <= i < |s| ==> KeyOf(s[i]) in m && m[KeyOf(s[i])] == s[i].count)
    && (forall k :: k in m ==> exists i :: 0 <= i < |s| && KeyOf(s[i]) == k)
    && (forall i, j :: 0 <= i < j < |s| ==> KeyOf(s[i]) != KeyOf(s[j]))
  }

  /**
   * statsFromMap: one row per map entry, in the map's (unspecified) iteration
   * order, which is why the next key is chosen arbitrarily.
   */
  method StatsFromMap(m: map<ChannelKey, nat>) returns (out: seq<ChannelStat>)
    ensures ListsExactly(out, m)
    ensures |out| == |m|
    ensures SumCounts(out) == SumValues(m)
  {
    out := [];
    var rest := m;
    while rest != map[]
      invariant Listed(out, rest, m)
      decreases |rest|
    {
      assert exists k :: k in rest by {
        assert rest.Keys != {};
      }
      var k :| k in rest;
      ListedStep(out, rest, m, k);
      out := out + [ChannelStat(k.name, k.url, rest[k])];
      rest := rest - {k};
    }
    ListedDone(out, m);
  }

  lemma ListedDone(out: seq<ChannelStat>, m: map<ChannelKey, nat>)
    requires Listed(out, map[], m)
    ensures ListsExactly(out, m) && |out| == |m| && SumCounts(out) == SumValues(m)
  {
    var empty: map<ChannelKey, nat> := map[];
    assert SumValues(empty) == 0;
    assert |empty| == 0;
    assert forall k :: k in m ==> exists i :: 0 <= i < |out| && KeyOf(out[i]) == k;
  }

  /** Halfway through statsFromMap: `out` lists the entries of `m` not left in `rest`. */
  ghost predicate Listed(out: seq<ChannelStat>, rest: map<ChannelKey, nat>, m: map<ChannelKey, nat>) {
    && rest.Keys <= m.Keys
    && (forall k :: k in rest ==> rest[k] == m[k])
    && |out| + |rest| == |m|
    && (forall i :: 0 <= i < |out| ==>
          KeyOf(out[i]) in m && KeyOf(out[i]) !in rest && m[KeyOf(out[i])] == out[i].count)
    && (forall k :: k in m ==> k in rest || exists i :: 0 <= i < |out| && KeyOf(out[i]) == k)
    && (forall i, j :: 0 <= i < j < |out| ==> KeyOf(out[i]) != KeyOf(out[j]))
    && SumCounts(out) + SumValues(rest) == SumValues(m)
  }

  lemma ListedStep(out: seq<ChannelStat>, rest: map<ChannelKey, nat>, m: map<ChannelKey, nat>, k: ChannelKey)
    requires Listed(out, rest, m) && k in rest
    ensures Listed(out + [ChannelStat(k.name, k.url, rest[k])], rest - {k}, m)
    ensures |rest - {k}| < |rest|
  {
    var x := ChannelStat(k.name, k.url, rest[k]);
    var out2 := out + [x];
    SumValuesRemove(rest, k);
    SumCountsAppend(out, x);
    assert (rest - {k}).Keys == rest.Keys - {k};
    assert KeyOf(x) == k;
    forall i | 0 <= i < |out2|
      ensures KeyOf(out2[i]) in m && KeyOf(out2[i]) !in rest - {k} && m[KeyOf(out2[i])] == out2[i].count
    {
      if i < |out| {
        assert out2[i] == out[i];
      }
    }
    forall i, j | 0 <= i < j < |out2| ensures KeyOf(out2[i]) != KeyOf(out2[j]) {
      assert out2[i] == out[i];
      if j < |out| {
        assert out2[j] == out[j];
      }
    }
    forall j | j in m ensures j in rest - {k} || exists i :: 0 <= i < |out2| && KeyOf(out2[i]) == j {
      if j == k {
        assert KeyOf(out2[|out|]) == j;
      } else if j !in rest {
        var i :| 0 <= i < |out| && KeyOf(out[i]) == j;
        assert KeyOf(out2[i]) == j;
      }
    }
  }

  lemma {:induction false} SumCountsAppend(s: seq<ChannelStat>, x: ChannelStat)
    ensures SumCounts(s + [x]) == SumCounts(s) + x.count
    decreases |s|
  {
    if |s| > 0 {
      assert (s + [x])[1..] == s[1..] + [x];
      SumCountsAppend(s[1..], x);
    }
  }

  /** The `less` of sortStatsByCountThenName: higher count first, then lower-cased name. */
  predicate GoLess(a: ChannelStat, b: ChannelStat) {
    if a.count == b.count then Less(ToLower(a.name), ToLower(b.name)) else a.count > b.count
  }

  /** `a` may precede `b` in the ranked list. */
  predicate Before(a: ChannelStat, b: ChannelStat) {
    a.count > b.count || (a.count == b.count && LessEq(ToLower(a.name), ToLower(b.name)))
  }

  /** A list sort.Slice leaves in order (no later row is `less` than an earlier one) is one ordered by Before. */
  lemma BeforeIffNotGoLess(a: ChannelStat, b: ChannelStat)
    ensures Before(a, b) <==> !GoLess(b, a)
  {
    LessTrichotomy(ToLower(a.name), ToLower(b.name));
  }

  lemma BeforeTotal(a: ChannelStat, b: ChannelStat)
    ensures Before(a, b) || Before(b, a)
  {
    LessEqTotal(ToLower(a.name), ToLower(b.name));
  }

  lemma BeforeTransitive(a: ChannelStat, b: ChannelStat, c: ChannelStat)
    requires Before(a, b) && Before(b, c)
    ensures Before(a, c)
  {
    if a.count == b.count == c.count {
      LessEqTransitive(ToLower(a.name), ToLower(b.name), ToLower(c.name));
    }
  }

  ghost predicate Sorted(s: seq<ChannelStat>) {
    forall i, j :: 0 <= i < j < |s| ==> Before(s[i], s[j])
  }

  /** Inserts `x` into a ranked list. */
  function Insert(x: ChannelStat, s: seq<ChannelStat>): (r: seq<ChannelStat>)
    requires Sorted(s)
    ensures Sorted(r)
    ensures multiset(r) == multiset(s) + multiset{x}
    ensures SumCounts(r) == SumCounts(s) + x.count
  {
    if |s| == 0 then [x]
    else if Before(x, s[0]) then
      InsertFront(x, s);
      [x] + s
    else
      var r' := Insert(x, s[1..]);
      BeforeTotal(x, s[0]);
      InsertBehind(s[0], x, s[1..], r');
      assert s == [s[0]] + s[1..];
      [s[0]] + r'
  }

  lemma InsertFront(x: ChannelStat, s: seq<ChannelStat>)
    requires Sorted(s) && |s| > 0 && Before(x, s[0])
    ensures Sorted([x] + s)
  {
    forall j | 0 < j < |s| ensures Before(x, s[j]) {
      BeforeTransitive(x, s[0], s[j]);
    }
  }

  lemma InsertBehind(h: ChannelStat, x: ChannelStat, t: seq<ChannelStat>, r: seq<ChannelStat>)
    requires Sorted([h] + t) && Before(h, x)
    requires Sorted(r) && multiset(r) == multiset(t) + multiset{x}
    ensures Sorted([h] + r)
  {
    forall j | 0 <= j < |r| ensures Before(h, r[j]) {
      assert r[j] in multiset(r);
      if r[j] != x {
        assert r[j] in multiset(t);
        assert r[j] in t;
        var i :| 0 <= i < |t| && t[i] == r[j];
        assert ([h] + t)[0] == h && ([h] + t)[i + 1] == t[i];
      }
    }
    forall i, j | 0 <= i < j < |[h] + r| ensures Before(([h] + r)[i], ([h] + r)[j]) {
      if i > 0 {
        assert ([h] + r)[i] == r[i - 1] && ([h] + r)[j] == r[j - 1];
      }
    }
  }

  /**
   * sortStatsByCountThenName, as an insertion sort: the result is a permutation
   * of the input ordered by count descending, then lower-cased name ascending.
   * Rows that tie on both may come out in either order, as with sort.Slice.
   */
  function SortStats(s: seq<ChannelStat>): (r: seq<ChannelStat>)
    ensures Sorted(r)
    ensures multiset(r) == multiset(s)
    ensures |r| == |s|
    ensures SumCounts(r) == SumCounts(s)
  {
    if |s| == 0 then []
    else
      assert s == [s[0]] + s[1..];
      Insert(s[0], SortStats(s[1..]))
  }

  /** `top = top[:n]` when `n > 0 && len(top) > n`; otherwise the whole list. */
  function Truncate(s: seq<ChannelStat>, n: int): (r: seq<ChannelStat>)
    ensures |r| <= |s| && r == s[..|r|]
    ensures n > 0 ==> |r| == if |s| < n then |s| else n
    ensures n <= 0 ==> r == s
  {
    if n > 0 && |s| > n then s[..n] else s
  }

  /** A top-N view of a ranked list is ranked, and no dropped row outranks a kept one. */
  lemma TruncateKeepsTop(s: seq<ChannelStat>, n: int)
    requires Sorted(s)
    ensures Sorted(Truncate(s, n))
    ensures forall i, j :: 0 <= i < |Truncate(s, n)| <= j < |s| ==> Before(s[i], s[j])
  {
  }

  /** Truncation law: the top-N view is the first N rows of the unlimited view. */
  lemma TruncateIsPrefixOfAll(s: seq<ChannelStat>, n: int)
    requires n > 0
    ensures Truncate(s, n) == Truncate(s, 0)[..if |s| < n then |s| else n]
  {
  }

  /** The rows kept by a top-N view never count more than the full list. */
  lemma {:induction false} SumCountsPrefix(s: seq<ChannelStat>, n: nat)
    requires n <= |s|
    ensures SumCounts(s[..n]) <= SumCounts(s)
    decreases n
  {
    if n > 0 {
      assert s[..n][1..] == s[1..][..n - 1];
      SumCountsPrefix(s[1..], n - 1);
    }
  }

  /** A ranked listing of a count map: every key once, with its count, sum preserved. */
  method RankCounts(m: map<ChannelKey, nat>) returns (ranked: seq<ChannelStat>)
    ensures Sorted(ranked)
    ensures ListsExactly(ranked, m)
    ensures |ranked| == |m|
    ensures SumCounts(ranked) == SumValues(m)
  {
    var stats := StatsFromMap(m);
    ranked := SortStats(stats);
    PermutationListsExactly(stats, ranked, m);
  }

  lemma PermutationListsExactly(s: seq<ChannelStat>, r: seq<ChannelStat>, m: map<ChannelKey, nat>)
    requires ListsExactly(s, m) && multiset(r) == multiset(s)
    ensures ListsExactly(r, m)
  {
    forall i | 0 <= i < |r| ensures KeyOf(r[i]) in m && m[KeyOf(r[i])] == r[i].count {
      assert r[i] in multiset(s);
    }
    forall k | k in m ensures exists i :: 0 <= i < |r| && KeyOf(r[i]) == k {
      var j :| 0 <= j < |s| && KeyOf(s[j]) == k;
      assert s[j] in multiset(r);
    }
    forall i, j | 0 <= i < j < |r| ensures KeyOf(r[i]) != KeyOf(r[j]) {
      if KeyOf(r[i]) == KeyOf(r[j]) {
        // both rows carry m's count for the key, so they are the same row,
        // which then occurs twice in r but only once in s
        assert r[i] == r[j];
        DistinctKeysOccurOnce(s, r[i]);
        TwoIndicesCountTwice(r, i, j);
        assert false;
      }
    }
  }

  lemma {:induction false} DistinctKeysOccurOnce(s: seq<ChannelStat>, x: ChannelStat)
    requires forall i, j :: 0 <= i < j < |s| ==> KeyOf(s[i]) != KeyOf(s[j])
    ensures multiset(s)[x] <= 1
    decreases |s|
  {
    if |s| > 0 {
      assert s == [s[0]] + s[1..];
      DistinctKeysOccurOnce(s[1..], x);
      if s[0] == x {
        assert x !in s[1..];
      }
    }
  }

  lemma {:induction false} TwoIndicesCountTwice(r: seq<ChannelStat>, i: int, j: int)
    requires 0 <= i < j < |r| && r[i] == r[j]
    ensures multiset(r)[r[i]] >= 2
  {
    assert r == r[..j] + [r[j]] + r[j + 1..];
    assert r[i] in r[..j];
  }
}

=== FILE: report.dfy ===
/**
 * The per-year and all-time views main.go assembles after the pass, without
 * the JSON encoding and the file writes.
 */
module Report {
  import opened Classifier
  import opened Counts
  import opened Aggregator
  import opened Ranker

  /** The three list limits: top N per year, full-list limit per year, all-time top N. */
  datatype Limits = Limits(topN: int, fullLimit: int, allTimeTop: int)

  /** The content of top_channels_<YEAR>.json. */
  datatype YearResult = YearResult(
    year: int,
    totalVideos: nat,
    uniqueChannels: nat,
    topChannels: seq<ChannelStat>,
    topN: int,
    filteredAction: string,
    timeParseFailures: nat)

  /** The content of channels_full_<YEAR>.json, less its fixed sort description. */
  datatype YearFull = YearFull(year: int, totalVideos: nat, channels: seq<ChannelStat>, limit: int)

  /** The content of top_channels_all_time.json, less its fixed sort description and note. */
  datatype AllTimeTop = AllTimeTop(topN: int, totalVideos: nat, channels: seq<ChannelStat>)

  /** Everything the run writes: the by-year and summary files reuse `perYearTop`. */
  datatype Outputs = Outputs(
    perYearTop: map<int, YearResult>,
    perYearFull: map<int, YearFull>,
    totalAllYears: nat,
    allTime: AllTimeTop)

  /** `ranked` lists the count map `m`, every key once, in ranking order. */
  ghost predicate Ranking(ranked: seq<ChannelStat>, m: map<ChannelKey, nat>) {
    && Sorted(ranked)
    && ListsExactly(ranked, m)
    && |ranked| == |m|
    && SumCounts(ranked) == SumValues(m)
  }

  /** `res` and `full` are the two views of year `y` of the state `t`. */
  ghost predicate YearReported(res: YearResult, full: YearFull, t: Tally, y: int, lim: Limits)
    requires y in t.yearCounts && y in t.yearTotals && y in t.yearParseFails
  {
    && res.year == y && full.year == y
    && res.totalVideos == t.yearTotals[y] && full.totalVideos == t.yearTotals[y]
    && res.uniqueChannels == |t.yearCounts[y]|
    && res.topN == lim.topN && full.limit == lim.fullLimit
    && res.filteredAction == "Watched"
    && res.timeParseFailures == t.yearParseFails[y]
    && exists ranked ::
         && Ranking(ranked, t.yearCounts[y])
         && res.topChannels == Truncate(ranked, lim.topN)
         && full.channels == Truncate(ranked, lim.fullLimit)
  }

  /** The body of main's per-year loop: rank the year's channels, then cut the two views. */
  method BuildYear(t: Tally, cfg: Config, y: int, lim: Limits) returns (res: YearResult, full: YearFull)
    requires HasBuckets(t, cfg) && NoParseFailures(t) && InRange(y, cfg)
    ensures YearReported(res, full, t, y, lim)
    ensures res.timeParseFailures == 0
  {
    var ranked := RankCounts(t.yearCounts[y]);
    res := YearResult(y, t.yearTotals[y], |t.yearCounts[y]|, Truncate(ranked, lim.topN), lim.topN,
                      "Watched", t.yearParseFails[y]);
    full := YearFull(y, t.yearTotals[y], Truncate(ranked, lim.fullLimit), lim.fullLimit);
    assert Ranking(ranked, t.yearCounts[y]);
  }

  /** The all-time view: the all-time map ranked and cut to the all-time limit. */
  ghost predicate AllTimeReported(a: AllTimeTop, t: Tally, lim: Limits) {
    && a.topN == lim.allTimeTop
    && a.totalVideos == t.totalAllYears
    && exists ranked :: Ranking(ranked, t.allTimeCounts) && a.channels == Truncate(ranked, lim.allTimeTop)
  }

  function YearTotal(m: map<int, YearResult>, y: int): nat {
    if y in m then m[y].totalVideos else 0
  }

  /** The sum of total_videos_watched over the years [lo, hi]. */
  function SumYearTotals(m: map<int, YearResult>, lo: int, hi: int): nat
    decreases hi - lo
  {
    if lo > hi then 0 else YearTotal(m, lo) + SumYearTotals(m, lo + 1, hi)
  }

  lemma {:induction false} SumYearTotalsMatches(m: map<int, YearResult>, totals: map<int, nat>, lo: int, hi: int)
    requires forall y :: lo <= y <= hi ==> YearTotal(m, y) == GetYear(totals, y)
    ensures SumYearTotals(m, lo, hi) == SumRange(totals, lo, hi)
    decreases hi - lo
  {
    if lo <= hi {
      SumYearTotalsMatches(m, totals, lo + 1, hi);
    }
  }

  /**
   * With no full-list limit, a year's full list holds every channel of the year
   * once and its counts add up to the year's total.
   */
  lemma FullListSumsToTotal(res: YearResult, full: YearFull, t: Tally, cfg: Config, y: int, lim: Limits)
    requires Wf(t, cfg) && InRange(y, cfg)
    requires YearReported(res, full, t, y, lim)
    requires lim.fullLimit <= 0
    ensures SumCounts(full.channels) == full.totalVideos
    ensures |full.channels| == res.uniqueChannels
  {
    var ranked :| Ranking(ranked, t.yearCounts[y])
                  && res.topChannels == Truncate(ranked, lim.topN)
                  && full.channels == Truncate(ranked, lim.fullLimit);
  }

  /**
   * A year's top list never counts more watches than the year's total, and the
   * year never has more distinct channels than watches.
   */
  lemma TopListWithinTotal(res: YearResult, full: YearFull, t: Tally, cfg: Config, y: int, lim: Limits)
    requires Wf(t, cfg) && InRange(y, cfg)
    requires YearReported(res, full, t, y, lim)
    ensures SumCounts(res.topChannels) <= res.totalVideos
    ensures res.uniqueChannels <= res.totalVideos
  {
    var ranked :| Ranking(ranked, t.yearCounts[y])
                  && res.topChannels == Truncate(ranked, lim.topN)
                  && full.channels == Truncate(ranked, lim.fullLimit);
    SumCountsPrefix(ranked, |res.topChannels|);
    SumValuesAtLeastSize(t.yearCounts[y]);
  }

  /** A year's top list is ranked, and no channel left out of it outranks one kept in it. */
  lemma TopListIsTop(res: YearResult, full: YearFull, t: Tally, cfg: Config, y: int, lim: Limits)
    requires HasBuckets(t, cfg) && InRange(y, cfg)
    requires YearReported(res, full, t, y, lim)
    ensures Sorted(res.topChannels)
    ensures forall i, k :: 0 <= i < |res.topChannels| && k in t.yearCounts[y] && k !in KeysOf(res.topChannels)
              ==> Before(res.topChannels[i], ChannelStat(k.name, k.url, t.yearCounts[y][k]))
  {
    var ranked :| Ranking(ranked, t.yearCounts[y])
                  && res.topChannels == Truncate(ranked, lim.topN)
                  && full.channels == Truncate(ranked, lim.fullLimit);
    TopDominatesRest(ranked, t.yearCounts[y], lim.topN);
  }

  function KeysOf(s: seq<ChannelStat>): set<ChannelKey> {
    set i | 0 <= i < |s| :: KeyOf(s[i])
  }

  lemma TopDominatesRest(ranked: seq<ChannelStat>, m: map<ChannelKey, nat>, n: int)
    requires Ranking(ranked, m)
    ensures Sorted(Truncate(ranked, n))
    ensures forall i, k :: 0 <= i < |Truncate(ranked, n)| && k in m && k !in KeysOf(Truncate(ranked, n))
              ==> Before(Truncate(ranked, n)[i], ChannelStat(k.name, k.url, m[k]))
  {
    var top := Truncate(ranked, n);
    TruncateKeepsTop(ranked, n);
    assert forall j :: 0 <= j < |top| ==> top[j] == ranked[j] && KeyOf(top[j]) in KeysOf(top);
    forall i, k | 0 <= i < |top| && k in m && k !in KeysOf(top)
      ensures Before(top[i], ChannelStat(k.name, k.url, m[k]))
    {
      var j :| 0 <= j < |ranked| && KeyOf(ranked[j]) == k;
      assert ranked[j] == ChannelStat(k.name, k.url, m[k]);
      assert |top| <= j;
      assert top[i] == ranked[i];
    }
  }

  /** main's per-year loop over [startYear, endYear]. */
  method BuildYears(t: Tally, cfg: Config, lim: Limits)
    returns (perYearTop: map<int, YearResult>, perYearFull: map<int, YearFull>)
    requires HasBuckets(t, cfg) && NoParseFailures(t) && cfg.startYear <= cfg.endYear
    ensures forall y :: y in perYearTop <==> InRange(y, cfg)
    ensures forall y :: y in perYearFull <==> InRange(y, cfg)
    ensures forall y :: InRange(y, cfg) ==>
              && YearReported(perYearTop[y], perYearFull[y], t, y, lim)
              && perYearTop[y].timeParseFailures == 0
  {
    perYearTop, perYearFull := map[], map[];
    var y := cfg.startYear;
    while y <= cfg.endYear
      invariant cfg.startYear <= y <= cfg.endYear + 1
      invariant YearsDone(perYearTop, perYearFull, cfg.startYear, y)
      invariant AllReported(perYearTop, perYearFull, t, cfg, lim)
    {
      var res, full := BuildYear(t, cfg, y, lim);
      ReportedExtend(perYearTop, perYearFull, t, cfg, lim, y, res, full);
      YearsDoneExtend(perYearTop, perYearFull, cfg.startYear, y, res, full);
      perYearTop := perYearTop[y := res];
      perYearFull := perYearFull[y := full];
      y := y + 1;
    }
    AllReportedDone(perYearTop, perYearFull, t, cfg, lim);
  }

  /** Exactly the years [lo, hi) have been reported. */
  ghost predicate YearsDone(perYearTop: map<int, YearResult>, perYearFull: map<int, YearFull>, lo: int, hi: int) {
    && (forall y :: y in perYearTop <==> lo <= y < hi)
    && perYearFull.Keys == perYearTop.Keys
  }

  lemma YearsDoneExtend(perYearTop: map<int, YearResult>, perYearFull: map<int, YearFull>,
                        lo: int, hi: int, res: YearResult, full: YearFull)
    requires YearsDone(perYearTop, perYearFull, lo, hi) && lo <= hi
    ensures YearsDone(perYearTop[hi := res], perYearFull[hi := full], lo, hi + 1)
  {
  }

  lemma AllReportedDone(perYearTop: map<int, YearResult>, perYearFull: map<int, YearFull>,
                        t: Tally, cfg: Config, lim: Limits)
    requires HasBuckets(t, cfg)
    requires YearsDone(perYearTop, perYearFull, cfg.startYear, cfg.endYear + 1)
    requires AllReported(perYearTop, perYearFull, t, cfg, lim)
    ensures forall y :: y in perYearTop <==> InRange(y, cfg)
    ensures forall y :: y in perYearFull <==> InRange(y, cfg)
    ensures forall y :: InRange(y, cfg) ==>
              && YearReported(perYearTop[y], perYearFull[y], t, y, lim)
              && perYearTop[y].timeParseFailures == 0
  {
  }

  /** Every year reported so far has both views of that year. */
  ghost predicate AllReported(perYearTop: map<int, YearResult>, perYearFull: map<int, YearFull>,
                              t: Tally, cfg: Config, lim: Limits)
  {
    forall y :: y in perYearTop ==>
      && y in perYearFull && InRange(y, cfg)
      && y in t.yearCounts && y in t.yearTotals && y in t.yearParseFails
      && YearReported(perYearTop[y], perYearFull[y], t, y, lim)
      && perYearTop[y].timeParseFailures == 0
  }

  lemma ReportedExtend(perYearTop: map<int, YearResult>, perYearFull: map<int, YearFull>,
                       t: Tally, cfg: Config, lim: Limits, y: int, res: YearResult, full: YearFull)
    requires HasBuckets(t, cfg) && InRange(y, cfg)
    requires AllReported(perYearTop, perYearFull, t, cfg, lim)
    requires YearReported(res, full, t, y, lim) && res.timeParseFailures == 0
    ensures AllReported(perYearTop[y := res], perYearFull[y := full], t, cfg, lim)
  {
    var top2, full2 := perYearTop[y := res], perYearFull[y := full];
    forall y' | y' in top2
      ensures && y' in full2 && InRange(y', cfg)
              && y' in t.yearCounts && y' in t.yearTotals && y' in t.yearParseFails
              && YearReported(top2[y'], full2[y'], t, y', lim)
              && top2[y'].timeParseFailures == 0
    {
      if y' != y {
        assert top2[y'] == perYearTop[y'] && full2[y'] == perYearFull[y'];
      }
    }
  }

  /**
   * The whole run after decoding: the pass, then per year the top and full
   * views, then the all-time view. main rejects start > end before any of this.
   */
  method Run(acts: seq<Activity>, cfg: Config, lim: Limits) returns (out: Outputs)
    requires cfg.startYear <= cfg.endYear
    ensures forall y :: y in out.perYearTop <==> InRange(y, cfg)
    ensures forall y :: y in out.perYearFull <==> InRange(y, cfg)
    ensures forall y :: InRange(y, cfg) ==>
              && YearReported(out.perYearTop[y], out.perYearFull[y], Aggregate(acts, cfg), y, lim)
              && out.perYearTop[y].timeParseFailures == 0
    ensures forall y :: InRange(y, cfg) ==> out.perYearTop[y].totalVideos == CountYear(Hits(acts, cfg), y)
    ensures out.totalAllYears == |Hits(acts, cfg)|
    ensures out.totalAllYears == SumYearTotals(out.perYearTop, cfg.startYear, cfg.endYear)
    ensures AllTimeReported(out.allTime, Aggregate(acts, cfg), lim)
  {
    var t := StreamParseAndAggregate(acts, cfg);
    AggregateWf(acts, cfg);
    AggregateCounts(acts, cfg);
    var perYearTop, perYearFull := BuildYears(t, cfg, lim);
    var allStats := RankCounts(t.allTimeCounts);
    out := Outputs(perYearTop, perYearFull, t.totalAllYears,
                   AllTimeTop(lim.allTimeTop, t.totalAllYears, Truncate(allStats, lim.allTimeTop)));
    assert Ranking(allStats, t.allTimeCounts);
    YearTotalsMatch(perYearTop, perYearFull, t, cfg, lim);
    SumYearTotalsMatches(perYearTop, t.yearTotals, cfg.startYear, cfg.endYear);
  }

  lemma YearTotalsMatch(perYearTop: map<int, YearResult>, perYearFull: map<int, YearFull>,
                        t: Tally, cfg: Config, lim: Limits)
    requires HasBuckets(t, cfg)
    requires forall y :: y in perYearTop <==> InRange(y, cfg)
    requires forall y :: y in perYearFull <==> InRange(y, cfg)
    requires forall y :: InRange(y, cfg) ==> YearReported(perYearTop[y], perYearFull[y], t, y, lim)
    ensures forall y :: InRange(y, cfg) ==> YearTotal(perYearTop, y) == GetYear(t.yearTotals, y)
  {
    forall y | InRange(y, cfg) ensures YearTotal(perYearTop, y) == GetYear(t.yearTotals, y) {
      assert YearReported(perYearTop[y], perYearFull[y], t, y, lim);
    }
  }
}

=== FILE: scenarios.dfy ===
/** Worked examples of the classifier and the aggregator on concrete records. */
module Scenarios {
  import opened Wrappers
  import opened Text
  import opened Classifier
  import opened Counts
  import opened Aggregator
  import opened Ranker
  import opened Report

  function Window(parseYear: string -> Option<int>): Config {
    Config(2020, 2026, parseYear)
  }

  lemma WatchedTitle(s: string)
    requires |s| > 8 && s[..8] == "Watched " && !IsSpace(s[|s| - 1])
    ensures IsWatchTitle(s)
  {
    WatchTitleOfUnpadded(s);
    LowerWatched();
  }

  lemma LowerWatched()
    ensures ToLower("Watched ") == WatchPrefix
  {
    var l := ToLower("Watched ");
    assert |l| == 8;
    assert l[0] == 'w' && l[1] == 'a' && l[2] == 't' && l[3] == 'c';
    assert l[4] == 'h' && l[5] == 'e' && l[6] == 'd' && l[7] == ' ';
  }

  /** A watch record with a channel and an in-range time is counted for that channel in its year. */
  lemma CountedUnderItsChannel(parseYear: string -> Option<int>)
    requires parseYear("2022-05-01T10:00:00Z") == Some(2022)
    ensures Classify(Activity("Watched Some Show", "", "2022-05-01T10:00:00Z",
                              [Subtitle("Chan A", "http://x")]), Window(parseYear))
            == Accept(2022, ChannelKey("Chan A", "http://x"))
  {
    var a := Activity("Watched Some Show", "", "2022-05-01T10:00:00Z", [Subtitle("Chan A", "http://x")]);
    WatchedTitle(a.title);
    TrimSpaceOfUnpadded(a.time);
    KeyOfUnpaddedSubtitle(a, "Chan A", "http://x");
    ClassifyCases(a, Window(parseYear));
  }

  /** A first subtitle whose name and url carry no outer white space is its own key. */
  lemma KeyOfUnpaddedSubtitle(a: Activity, name: string, url: string)
    requires |a.subtitles| > 0 && a.subtitles[0] == Subtitle(name, url)
    requires name != [] && !IsSpace(name[0]) && !IsSpace(name[|name| - 1])
    requires url == [] || (!IsSpace(url[0]) && !IsSpace(url[|url| - 1]))
    ensures ChannelOf(a) == ChannelKey(name, url)
  {
    TrimSpaceOfUnpadded(name);
    TrimSpaceOfUnpadded(url);
  }

  /** Any other action is not a watch event, whatever its time and subtitles. */
  lemma VisitedIsIgnored(acts: seq<Activity>, time: string, subs: seq<Subtitle>, cfg: Config)
    ensures Aggregate(acts + [Activity("Visited a page", "", time, subs)], cfg) == Aggregate(acts, cfg)
  {
    var s := "Visited a page";
    WatchTitleOfUnpadded(s);
    assert ToLower(s[..8])[0] == 'v';
    AggregateSkipsRejected(acts, Activity(s, "", time, subs), cfg);
  }

  /** A watch record whose time does not parse is dropped. */
  lemma UnparsableTimeIsDropped(parseYear: string -> Option<int>)
    requires parseYear("not-a-date") == None
    ensures Classify(Activity("Watched X", "", "not-a-date", []), Window(parseYear)) == BadTime
  {
    var a := Activity("Watched X", "", "not-a-date", []);
    WatchedTitle(a.title);
    TrimSpaceOfUnpadded(a.time);
    ClassifyCases(a, Window(parseYear));
  }

  /** A watch record from a year before the window is dropped. */
  lemma EarlyYearIsDropped(parseYear: string -> Option<int>)
    requires parseYear("2019-07-04T12:00:00-05:00") == Some(2019)
    ensures Classify(Activity("Watched Y", "", "2019-07-04T12:00:00-05:00", []), Window(parseYear))
            == OutOfRange(2019)
  {
    var a := Activity("Watched Y", "", "2019-07-04T12:00:00-05:00", []);
    WatchedTitle(a.title);
    TrimSpaceOfUnpadded(a.time);
    ClassifyCases(a, Window(parseYear));
  }

  /** A watch record with no subtitles is counted for "(unknown channel)" with an empty url. */
  lemma NoSubtitlesIsUnknownChannel(parseYear: string -> Option<int>)
    requires parseYear("2023-01-01T00:00:00Z") == Some(2023)
    ensures Classify(Activity("Watched Z", "", "2023-01-01T00:00:00Z", []), Window(parseYear))
            == Accept(2023, ChannelKey("(unknown channel)", ""))
  {
    var a := Activity("Watched Z", "", "2023-01-01T00:00:00Z", []);
    WatchedTitle(a.title);
    TrimSpaceOfUnpadded(a.time);
    assert ChannelOf(a) == ChannelKey(UnknownChannel, "");
    ClassifyCases(a, Window(parseYear));
  }

  /** Two records of one channel in one year are merged into a single count of two. */
  lemma SameChannelTwiceCountsTwo(a: Activity, b: Activity, cfg: Config, y: int, k: ChannelKey)
    requires Classify(a, cfg) == Accept(y, k) && Classify(b, cfg) == Accept(y, k)
    ensures Get(Aggregate([a, b], cfg).yearCounts[y], k) == 2
    ensures GetYear(Aggregate([a, b], cfg).yearTotals, y) == 2
    ensures Get(Aggregate([a, b], cfg).allTimeCounts, k) == 2
  {
    AppendOne(a, b);
    AggregateEmpty(cfg, y, k);
    AggregateCountsAccepted([], a, y, k, cfg);
    AggregateCountsAccepted([a], b, y, k, cfg);
  }

  /** The channel of those two records appears once in any ranking of that year, with a count of two. */
  lemma SameChannelTwiceIsRanked(a: Activity, b: Activity, cfg: Config, y: int, k: ChannelKey, ranked: seq<ChannelStat>)
    requires Classify(a, cfg) == Accept(y, k) && Classify(b, cfg) == Accept(y, k)
    requires Ranking(ranked, Aggregate([a, b], cfg).yearCounts[y])
    ensures exists i :: 0 <= i < |ranked| && KeyOf(ranked[i]) == k && ranked[i].count == 2
  {
    SameChannelTwiceCountsTwo(a, b, cfg, y, k);
    var m := Aggregate([a, b], cfg).yearCounts[y];
    assert k in m;
    var i :| 0 <= i < |ranked| && KeyOf(ranked[i]) == k;
    assert ranked[i].count == m[k];
  }

  lemma AppendOne<T>(a: T, b: T)
    ensures [] + [a] == [a] && [a] + [b] == [a, b]
  {
  }

  lemma AggregateEmpty(cfg: Config, y: int, k: ChannelKey)
    requires InRange(y, cfg)
    ensures Get(Aggregate([], cfg).yearCounts[y], k) == 0
    ensures GetYear(Aggregate([], cfg).yearTotals, y) == 0
    ensures Get(Aggregate([], cfg).allTimeCounts, k) == 0
  {
    assert Aggregate([], cfg) == Init(cfg);
  }
}

=== FILE: text.dfy ===
/**
 * The string helpers the classifier and ranker rely on, restricted to ASCII:
 * whitespace trimming (strings.TrimSpace), lower-casing (strings.ToLower),
 * prefix testing (strings.HasPrefix) and Go's lexicographic string order.
 */
module Text {

  /** ASCII white space as Go's TrimSpace sees it: '\t', '\n', '\v', '\f', '\r' and ' '. */
  predicate IsSpace(c: char) {
    c == ' ' || ('\t' <= c <= '\r')
  }

  predicate AllSpace(s: string) {
    forall i :: 0 <= i < |s| ==> IsSpace(s[i])
  }

  /** Every character of `s` outside positions `lo..hi` is white space. */
  predicate SpaceOutside(s: string, lo: nat, hi: nat) {
    forall i :: 0 <= i < |s| && !(lo <= i < hi) ==> IsSpace(s[i])
  }

  /** `r` occurs in `s` at position `lo`, and everything around it is white space. */
  predicate PaddedAt(s: string, r: string, lo: nat) {
    lo + |r| <= |s| && r == s[lo..lo + |r|] && SpaceOutside(s, lo, lo + |r|)
  }

  /** `s` is `r` with white space added on either side. */
  ghost predicate PaddedBy(s: string, r: string) {
    exists lo: nat :: PaddedAt(s, r, lo)
  }

  /** Drops leading white space. */
  function TrimLeft(s: string): (r: string)
    ensures |r| <= |s| && r == s[|s| - |r|..]
    ensures forall i :: 0 <= i < |s| - |r| ==> IsSpace(s[i])
    ensures r == [] || !IsSpace(r[0])
  {
    if |s| > 0 && IsSpace(s[0]) then TrimLeft(s[1..]) else s
  }

  /** Drops trailing white space. */
  function TrimRight(s: string): (r: string)
    ensures |r| <= |s| && r == s[..|r|]
    ensures forall i :: |r| <= i < |s| ==> IsSpace(s[i])
    ensures r == [] || !IsSpace(r[|r| - 1])
  {
    if |s| > 0 && IsSpace(s[|s| - 1]) then TrimRight(s[..|s| - 1]) else s
  }

  /** strings.TrimSpace: `s` with white space removed from both ends. */
  function TrimSpace(s: string): (r: string)
    ensures |r| <= |s|
    ensures r == [] || (!IsSpace(r[0]) && !IsSpace(r[|r| - 1]))
  {
    var l := TrimLeft(s);
    var r := TrimRight(l);
    assert r != [] ==> r[0] == l[0];
    r
  }

  /** TrimSpace removes white space only, and only at the two ends. */
  lemma TrimSpaceRemovesOnlySpace(s: string)
    ensures PaddedBy(s, TrimSpace(s))
  {
    var l := TrimLeft(s);
    var r := TrimRight(l);
    assert r == TrimSpace(s);
    PaddedAtOfTrims(s, l, r);
  }

  lemma PaddedAtOfTrims(s: string, l: string, r: string)
    requires |l| <= |s| && l == s[|s| - |l|..]
    requires forall i :: 0 <= i < |s| - |l| ==> IsSpace(s[i])
    requires |r| <= |l| && r == l[..|r|]
    requires forall i :: |r| <= i < |l| ==> IsSpace(l[i])
    ensures PaddedAt(s, r, |s| - |l|)
  {
    var lo := |s| - |l|;
    forall i | 0 <= i < |s| && !(lo <= i < lo + |r|) ensures IsSpace(s[i]) {
      if i >= lo + |r| {
        assert s[i] == l[i - lo];
      }
    }
  }

  lemma {:induction false} TrimLeftPadded(p: string, r: string)
    requires AllSpace(p)
    requires r == [] || !IsSpace(r[0])
    ensures TrimLeft(p + r) == r
    decreases |p|
  {
    if |p| == 0 {
      assert p + r == r;
    } else {
      assert (p + r)[1..] == p[1..] + r;
      assert AllSpace(p[1..]) by {
        forall i | 0 <= i < |p[1..]| ensures IsSpace(p[1..][i]) {
          assert p[1..][i] == p[i + 1];
        }
      }
      TrimLeftPadded(p[1..], r);
    }
  }

  lemma {:induction false} TrimRightPadded(r: string, q: string)
    requires AllSpace(q)
    requires r == [] || !IsSpace(r[|r| - 1])
    ensures TrimRight(r + q) == r
    decreases |q|
  {
    if |q| == 0 {
      assert r + q == r;
    } else {
      var q' := q[..|q| - 1];
      assert (r + q)[..|r + q| - 1] == r + q';
      assert AllSpace(q') by {
        forall i | 0 <= i < |q'| ensures IsSpace(q'[i]) {
          assert q'[i] == q[i];
        }
      }
      TrimRightPadded(r, q');
    }
  }

  /**
   * TrimSpace is determined by its characterisation: padding a word that neither
   * starts nor ends with white space by white space on both sides trims back to the word.
   */
  lemma TrimSpaceOfPadded(p: string, w: string, q: string)
    requires AllSpace(p) && AllSpace(q)
    requires w == [] || (!IsSpace(w[0]) && !IsSpace(w[|w| - 1]))
    ensures TrimSpace(p + w + q) == w
  {
    if w == [] {
      assert p + w + q == (p + q) + [];
      assert AllSpace(p + q) by {
        forall i | 0 <= i < |p + q| ensures IsSpace((p + q)[i]) {
          if i < |p| { assert (p + q)[i] == p[i]; } else { assert (p + q)[i] == q[i - |p|]; }
        }
      }
      TrimLeftPadded(p + q, []);
      assert TrimRight([]) == [];
    } else {
      assert p + w + q == p + (w + q);
      TrimLeftPadded(p, w + q);
      TrimRightPadded(w, q);
    }
  }

  /** A string that neither starts nor ends with white space is its own trim. */
  lemma TrimSpaceOfUnpadded(w: string)
    requires w == [] || (!IsSpace(w[0]) && !IsSpace(w[|w| - 1]))
    ensures TrimSpace(w) == w
  {
    TrimSpaceOfPadded([], w, []);
    assert [] + w + [] == w;
  }

  /** unicode.ToLower on ASCII: an upper-case letter becomes the matching lower-case letter. */
  function LowerChar(c: char): (d: char)
    ensures 'A' <= c <= 'Z' ==> 'a' <= d <= 'z' && d as int - 'a' as int == c as int - 'A' as int
    ensures !('A' <= c <= 'Z') ==> d == c
  {
    if 'A' <= c <= 'Z' then (c as int - 'A' as int + 'a' as int) as char else c
  }

  /** strings.ToLower on ASCII letters; every other character is kept. */
  function ToLower(s: string): (r: string)
    ensures |r| == |s|
    ensures forall i :: 0 <= i < |s| ==> r[i] == LowerChar(s[i])
  {
    seq(|s|, i requires 0 <= i < |s| => LowerChar(s[i]))
  }

  /** `c` and `d` are the same character, or the same ASCII letter in different case. */
  predicate SameIgnoringCase(c: char, d: char) {
    || c == d
    || ('A' <= c <= 'Z' && d as int == c as int + 32)
    || ('A' <= d <= 'Z' && c as int == d as int + 32)
  }

  lemma LowerCharEqIff(c: char, d: char)
    ensures LowerChar(c) == LowerChar(d) <==> SameIgnoringCase(c, d)
  {
  }

  /** Two strings lower-case to the same string exactly when they differ in ASCII letter case only. */
  lemma ToLowerEqIff(a: string, b: string)
    ensures ToLower(a) == ToLower(b) <==>
            |a| == |b| && forall i :: 0 <= i < |a| ==> SameIgnoringCase(a[i], b[i])
  {
    if ToLower(a) == ToLower(b) {
      forall i | 0 <= i < |a| ensures SameIgnoringCase(a[i], b[i]) {
        assert ToLower(a)[i] == ToLower(b)[i];
        LowerCharEqIff(a[i], b[i]);
      }
    }
    if |a| == |b| && forall i :: 0 <= i < |a| ==> SameIgnoringCase(a[i], b[i]) {
      forall i | 0 <= i < |a| ensures ToLower(a)[i] == ToLower(b)[i] {
        LowerCharEqIff(a[i], b[i]);
      }
    }
  }

  lemma ToLowerPrefix(s: string, n: nat)
    requires n <= |s|
    ensures ToLower(s)[..n] == ToLower(s[..n])
  {
  }

  predicate HasPrefix(s: string, p: string) {
    |p| <= |s| && s[..|p|] == p
  }

  /**
   * Go's `<` on strings: byte-wise lexicographic order of the UTF-8 encodings,
   * which coincides with lexicographic order of the code points.
   */
  predicate Less(a: string, b: string)
    decreases |a|
  {
    if |b| == 0 then false
    else if |a| == 0 then true
    else if a[0] != b[0] then a[0] < b[0]
    else Less(a[1..], b[1..])
  }

  predicate LessEq(a: string, b: string) {
    Less(a, b) || a == b
  }

  /** `a` and `b` both have at least `n` characters and agree on the first `n`. */
  predicate AgreeBelow(a: string, b: string, n: nat) {
    n <= |a| && n <= |b| && forall j :: 0 <= j < n ==> a[j] == b[j]
  }

  /** `a` is a proper prefix of `b`, or the first character where they differ is smaller in `a`. */
  ghost predicate FirstDifferenceLess(a: string, b: string) {
    (|a| < |b| && AgreeBelow(a, b, |a|)) ||
    (exists i: nat :: i < |a| && i < |b| && AgreeBelow(a, b, i) && a[i] < b[i])
  }

  lemma AgreeBelowTails(a: string, b: string, n: nat)
    requires 0 < |a| && 0 < |b| && a[0] == b[0]
    ensures AgreeBelow(a, b, n + 1) <==> AgreeBelow(a[1..], b[1..], n)
  {
    if AgreeBelow(a[1..], b[1..], n) {
      forall j | 0 <= j < n + 1 ensures a[j] == b[j] {
        if j > 0 {
          assert a[1..][j - 1] == a[j] && b[1..][j - 1] == b[j];
        }
      }
    }
    if AgreeBelow(a, b, n + 1) {
      forall j | 0 <= j < n ensures a[1..][j] == b[1..][j] {
        assert a[1..][j] == a[j + 1] && b[1..][j] == b[j + 1];
      }
    }
  }

  lemma {:induction false} LessHasFirstDifference(a: string, b: string)
    requires Less(a, b)
    ensures FirstDifferenceLess(a, b)
    decreases |a|
  {
    if |a| == 0 || a[0] != b[0] {
      assert AgreeBelow(a, b, 0);
    } else {
      LessHasFirstDifference(a[1..], b[1..]);
      if |a| - 1 < |b| - 1 && AgreeBelow(a[1..], b[1..], |a| - 1) {
        AgreeBelowTails(a, b, |a| - 1);
      } else {
        var i: nat :| i < |a| - 1 && i < |b| - 1 && AgreeBelow(a[1..], b[1..], i) && a[1..][i] < b[1..][i];
        AgreeBelowTails(a, b, i);
        assert a[i + 1] == a[1..][i] && b[i + 1] == b[1..][i];
      }
    }
  }

  lemma {:induction false} PrefixIsLess(a: string, b: string)
    requires |a| < |b| && AgreeBelow(a, b, |a|)
    ensures Less(a, b)
    decreases |a|
  {
    if |a| > 0 {
      AgreeBelowTails(a, b, |a| - 1);
      PrefixIsLess(a[1..], b[1..]);
    }
  }

  lemma {:induction false} DifferenceIsLess(a: string, b: string, i: nat)
    requires i < |a| && i < |b| && AgreeBelow(a, b, i) && a[i] < b[i]
    ensures Less(a, b)
    decreases i
  {
    if i > 0 {
      AgreeBelowTails(a, b, i - 1);
      assert a[1..][i - 1] == a[i] && b[1..][i - 1] == b[i];
      DifferenceIsLess(a[1..], b[1..], i - 1);
    }
  }

  /** Less is the usual "first difference decides, a proper prefix comes first" order. */
  lemma {:induction false} LessIffFirstDifference(a: string, b: string)
    ensures Less(a, b) <==> FirstDifferenceLess(a, b)
  {
    if Less(a, b) {
      LessHasFirstDifference(a, b);
    }
    if FirstDifferenceLess(a, b) {
      if |a| < |b| && AgreeBelow(a, b, |a|) {
        PrefixIsLess(a, b);
      } else {
        var i: nat :| i < |a| && i < |b| && AgreeBelow(a, b, i) && a[i] < b[i];
        DifferenceIsLess(a, b, i);
      }
    }
  }

  lemma {:induction false} LessTrichotomy(a: string, b: string)
    ensures Less(a, b) || a == b || Less(b, a)
    ensures !(Less(a, b) && Less(b, a))
    decreases |a|
  {
    if |a| > 0 && |b| > 0 && a[0] == b[0] {
      LessTrichotomy(a[1..], b[1..]);
      if a[1..] == b[1..] {
        assert a == [a[0]] + a[1..] && b == [b[0]] + b[1..];
      }
    }
  }

  lemma {:induction false} LessTransitive(a: string, b: string, c: string)
    requires Less(a, b) && Less(b, c)
    ensures Less(a, c)
    decreases |a|
  {
    if |a| > 0 && a[0] == b[0] && b[0] == c[0] {
      LessTransitive(a[1..], b[1..], c[1..]);
    }
  }

  lemma LessEqTransitive(a: string, b: string, c: string)
    requires LessEq(a, b) && LessEq(b, c)
    ensures LessEq(a, c)
  {
    if Less(a, b) && Less(b, c) {
      LessTransitive(a, b, c);
    }
  }

  lemma LessEqTotal(a: string, b: string)
    ensures LessEq(a, b) || LessEq(b, a)
  {
    LessTrichotomy(a, b);
  }
}

=== FILE: wrappers.dfy ===
/** Optional values, used for the result of timestamp parsing. */
module Wrappers {

  datatype Option<+T> = None | Some(value: T)
}
